=== FILE: README.md ===
# Evading "NO" button — a Dafny model of its per-frame steering step

The repository's only real logic is the animation callback of the
`RepelButton` component: on every display frame the button measures how close
the mouse pointer is, how close it is to each viewport wall, plans a velocity
that flees the pointer and the walls (at panic speed when cornered), damps
its current velocity towards that plan, moves, clamps itself back into the
viewport and shrinks visually as the pointer comes near.

This project models that callback as a pure function over mathematical reals:

- `geometry.dfy` (module `Geometry`): vectors, `clamp`, `len` and `norm`.
- `tuning.dfy` (module `Tuning`): the tuning constants (`PROXIMITY`,
  `BASE_SPEED`, `PANIC_SPEED`, `WALL_MARGIN`, `WALL_REPEL_DIST`, `MIN_SCALE`,
  `SCALE_RADIUS`, the 33 ms frame cap, the 0.55 threat boost, the 1.2 corner
  threshold, the blend weights and the damping rates 25 and 15).
- `analyzer.dfy` (module `Analyzer`): viewport bounds, threat, the four wall
  proximities and the cornered test.
- `steering.dfy` (module `Steering`): target speed, the blended direction and
  the desired velocity.
- `integrator.dfy` (module `Integrator`): damping, the position update and the
  wall-contact velocity fix-up.
- `scaling.dfy` (module `Scaling`): the proximity scale.
- `frame.dfy` (module `Frame`): the whole frame `Step` (state, pointer,
  element, viewport size, time stamp → new state and scale) and runs of
  frames.

`Math.hypot` is not defined: every member that needs a length takes a
function `hypot` as a parameter and assumes only `Geometry.IsHypot` of it —
it is 0 on the zero vector and at least the magnitude of each of its
arguments, which the real hypot satisfies. The state record holds the refs
the callback keeps between frames (position, velocity, last time stamp); the
element ref becomes `Frame.Element` (`Missing` when the button is not yet
rendered, otherwise its box size).

The position is not always inside the bounds. When the viewport is narrower
(or shorter) than the box plus both margins, `maxX < minX`: a position at or
left of `minX` is put at `minX`, any other one fails the first test and is
put at `maxX`, and neither lies in the empty interval. `Frame.Step` therefore
states the in-bounds property only for a viewport that can hold the box,
`Integrator.ClampAxis` states that otherwise the position lands on one of the
two inverted ends, and `Frame.NarrowViewportPutsBoxAtMaxX` exhibits a box
placed at `maxX`, outside the bounds.

## Model

| member | source | states |
|---|---|---|
| Geometry.Clamp | frontend/src/RepellButton/RepelButton.tsx:21-23 | in a proper interval the result lies in [lo, hi] and is v itself when v is already in range, lo below it and hi above it; an inverted interval always yields lo |
| Geometry.Len | frontend/src/RepellButton/RepelButton.tsx:25-27 | the length is at least the magnitude of each coordinate and is zero exactly for the zero vector |
| Geometry.SafeLen | frontend/src/RepellButton/RepelButton.tsx:29-30 | the fallback from a zero length to 1 always gives a positive divisor, equal to the length for every non-zero vector |
| Geometry.Norm | frontend/src/RepellButton/RepelButton.tsx:29-32 | normalising keeps the sign of each coordinate, gives coordinates of magnitude at most one, and maps the zero vector to the zero vector instead of dividing by zero |
| Analyzer.ViewBounds | frontend/src/RepellButton/RepelButton.tsx:78-81 | the box keeps `WALL_MARGIN` to every viewport edge, and the bounds are non-empty exactly when the viewport holds the box plus both margins |
| Analyzer.Ramp | frontend/src/RepellButton/RepelButton.tsx:100-103 | the `clamp((R - d) / R, 0, 1)` closeness lies in [0, 1], is 1 exactly at distance 0 or less and 0 exactly from distance R on |
| Analyzer.RampAntitone | frontend/src/RepellButton/RepelButton.tsx:100-103 | closeness never increases with distance |
| Analyzer.Threat | frontend/src/RepellButton/RepelButton.tsx:91-92 | threat lies in [0, 1], is 1 exactly when the pointer is on the centre, 0 exactly from `PROXIMITY` on, and positive exactly inside `PROXIMITY` |
| Analyzer.ThreatAntitone | frontend/src/RepellButton/RepelButton.tsx:92 | a pointer further away is never more threatening |
| Analyzer.WallProximity | frontend/src/RepellButton/RepelButton.tsx:95-103 | each wall proximity lies in [0, 1], is 0 exactly when the box is at least `WALL_REPEL_DIST` from that bound, and 1 exactly when it is at or past the bound |
| Analyzer.CornerLevel | frontend/src/RepellButton/RepelButton.tsx:111-115 | the corner level lies in [0, 2] and, with proximities on the unit scale, is the horizontal plus the vertical pressure |
| Analyzer.Cornered | frontend/src/RepellButton/RepelButton.tsx:111-116 | cornered needs combined pressure above 1.2; on the unit scale that is also enough, and then each of the horizontal and vertical pressures exceeds 0.2 |
| Analyzer.Analyze | frontend/src/RepellButton/RepelButton.tsx:83-116 | `away` points from the pointer to the box centre, its length bounds both coordinates, a pointer on the centre gives distance 0 and threat 1, all proximities are on the unit scale, and cornered needs both a horizontal and a vertical wall |
| Steering.TargetSpeed | frontend/src/RepellButton/RepelButton.tsx:118-119 | cornered means panic speed; otherwise the speed lies between base speed and base plus 0.55 of the gap to panic speed, so it never exceeds panic speed |
| Steering.TargetSpeedMonotone | frontend/src/RepellButton/RepelButton.tsx:118-119 | more threat never lowers the target speed |
| Steering.AwayTerm | frontend/src/RepellButton/RepelButton.tsx:123-127 | the flee term is absent without threat and otherwise points away from the pointer on both axes |
| Steering.WallAxis | frontend/src/RepellButton/RepelButton.tsx:130-131 | one axis of the wall term vanishes without pressure and otherwise points away from the nearer wall of that axis |
| Steering.WallTerm | frontend/src/RepellButton/RepelButton.tsx:105-131 | the weighted wall push vanishes without wall pressure and on each axis points away from the nearer wall |
| Steering.Direction | frontend/src/RepellButton/RepelButton.tsx:121-131 | the blended direction is zero with neither threat nor wall pressure, flees the pointer when no wall presses, and heads away from the nearer walls when unthreatened |
| Steering.DesiredVelocity | frontend/src/RepellButton/RepelButton.tsx:133-137 | no coordinate of the desired velocity exceeds the target speed, it keeps the direction's signs, and it is zero for the zero direction |
| Steering.Plan | frontend/src/RepellButton/RepelButton.tsx:118-137 | the desired velocity stays within panic speed on both axes, is exactly zero with no threat and no wall pressure, flees the pointer without walls, leaves the nearer walls without threat, and is zero with the pointer exactly on the centre and no wall pressure (nothing to flee from) |
| Integrator.DampFactor | frontend/src/RepellButton/RepelButton.tsx:139-141 | the blend factor lies in [0, 1], is 0 when no time passes, positive when time passes, and below one whenever dt is within the 33 ms cap |
| Integrator.Approach | frontend/src/RepellButton/RepelButton.tsx:140-141 | the damped coordinate lies between the old and the desired value, so its magnitude is bounded by theirs and never grows towards a zero target; a factor below one never reaches a different target in one frame |
| Integrator.ClampAxis | frontend/src/RepellButton/RepelButton.tsx:146-160 | on a proper interval the position is the nearest in-bound point; on a non-degenerate axis contact with a bound leaves no velocity into it; a strictly interior result keeps position and velocity; velocity only ever drops to zero; an inverted interval puts the position on one of its two ends |
| Integrator.Integrate | frontend/src/RepellButton/RepelButton.tsx:139-162 | the new position lies in non-empty bounds, each velocity coordinate is bounded by the old and desired ones, on an axis whose bounds differ a box touching a bound has no velocity into it, and away from walls the position moves by velocity times dt |
| Scaling.Scale | frontend/src/RepellButton/RepelButton.tsx:165-170 | the scale lies in [`MIN_SCALE`, 1], is 1 exactly from `SCALE_RADIUS` on and `MIN_SCALE` with the pointer on the centre |
| Scaling.ScaleMonotone | frontend/src/RepellButton/RepelButton.tsx:166-170 | the scale never decreases as the pointer moves away |
| Frame.Elapsed | frontend/src/RepellButton/RepelButton.tsx:65 | the integrated time step never exceeds 33 ms nor the real elapsed time, and is one of the two |
| Frame.Step | frontend/src/RepellButton/RepelButton.tsx:64-174 | the time stamp is set to the frame time t (which may precede the previous one); with no element nothing moves and no scale is written; otherwise the scale is in [`MIN_SCALE`, 1], the position ends in bounds whenever the viewport fits the box, a box resting on a bound of a non-degenerate axis has no velocity into it, and a velocity within panic speed on both axes stays within it |
| Frame.RunKeepsSpeedBound | frontend/src/RepellButton/RepelButton.tsx:64-174 | over any run of frames, however long any frame stalls, velocity stays within panic speed on both axes |
| Frame.RunAdvancesClock | frontend/src/RepellButton/RepelButton.tsx:65-66 | after a run the time stamp is the last frame's |
| Frame.RunEndsInside | frontend/src/RepellButton/RepelButton.tsx:143-162 | a run whose last frame fits its viewport ends inside that frame's bounds, even after a resize |
| Frame.RunWhileMissing | frontend/src/RepellButton/RepelButton.tsx:68-72 | while the element is missing, position and velocity never change |
| Frame.SentinelPointerIsHarmless | frontend/src/RepellButton/RepelButton.tsx:43 | with the pointer still at its far-away start value the box is drawn at full size and, clear of the walls, never speeds up on either axis, and a box at rest stays exactly where it is |
| Frame.NarrowViewportPutsBoxAtMaxX | frontend/src/RepellButton/RepelButton.tsx:146-151 | in a 100 px wide viewport an 80 px box has `maxX < minX`, and a resting box at x = 30 is put at `maxX`, outside the bounds |
| Frame.PointerOnCentreFreezes | frontend/src/RepellButton/RepelButton.tsx:84-170 | a pointer exactly on the centre of a resting box clear of the walls leaves it where it is, at rest and drawn at `MIN_SCALE`: the frame has a fixed point |
| Frame.CorneredAtTopLeft | frontend/src/RepellButton/RepelButton.tsx:95-160 | a resting box 10 px from the left and top edges is cornered, is moved back onto the margin and gets a velocity into the interior on both axes |

## Left out

- `frontend/src/App.tsx`: page layout, images, the accepted flag, the alert and reading the placeholder position; none of it is steering logic.
- React machinery (`useState`, `useRef`, `useEffect`, `setPos`, the JSX): the refs are the fields of `Frame.AgentState`, and the initial position (the caller's or the default right of centre) is the caller's choice of start state.
- The `requestAnimationFrame` loop, its cancellation and the `mousemove` subscription and teardown: browser scheduling; the pointer, frame time and viewport size are inputs of `Frame.Step`, and `Frame.Run` stands for consecutive frames.
- DOM reads (`getBoundingClientRect`, `window.innerWidth`/`innerHeight`) and the `style.transform` string: the box size and viewport size are parameters, and the scale is returned as a number.
- IEEE-754 behaviour: numbers are reals, so NaN (which `|| 1` would also catch), infinities and rounding are not modelled.
- `Math.hypot` is a parameter constrained by `Geometry.IsHypot`, not a square root; no claim relies on its exact value.
- Frame.RunKeepsSpeedBound: bounds each velocity coordinate by `PANIC_SPEED`, not the Euclidean speed, because the model assumes of `hypot` only that it bounds each coordinate.
- Frame.SentinelPointerIsHarmless: shows only that one frame never speeds either axis up and that a box at rest stays put, not that a moving box comes to rest, because that needs every frame to advance time (a frame with t equal to the previous time stamp damps nothing) and iterated dynamics.
- Frame.Step: the in-bounds conclusion is stated only when the viewport holds the box plus both margins, because the code leaves the bounds otherwise; and no-velocity-into-a-wall is stated only on an axis whose bounds differ, because when the viewport is exactly the box plus both margins (`minX == maxX`) the code can put the box on `minX` through the `nx >= maxX` branch with its velocity still pointing into that wall.
- That the desired velocity has length exactly the target speed, and that the button escapes a pointer held near it within a number of frames: both need the real square root and iterated dynamics. A pointer held exactly on the centre of a resting box away from the walls is the exception and is modelled: there is nothing to flee from, so the box never moves (`Frame.PointerOnCentreFreezes`).

=== FILE: analyzer.dfy ===
/** Threat and wall analysis: the viewport bounds, how threatened the control
    is by the pointer and how close it is to each wall (RepelButton.tsx,
    lines 78-116). */
module Analyzer {
  import opened Geometry
  import opened Tuning

  /** The rectangle the control's top-left corner may occupy. */
  datatype Bounds = Bounds(minX: real, minY: real, maxX: real, maxY: real)

  predicate NonEmpty(b: Bounds) {
    b.minX <= b.maxX && b.minY <= b.maxY
  }

  predicate Inside(p: Vec, b: Bounds) {
    b.minX <= p.x <= b.maxX && b.minY <= p.y <= b.maxY
  }

  /** A box at p with velocity v that touches a bound of a non-degenerate
      axis does not move further into that bound. */
  predicate NoVelocityIntoWalls(p: Vec, v: Vec, b: Bounds) {
    && (p.x == b.minX && b.minX < b.maxX ==> v.x >= 0.0)
    && (p.x == b.maxX && b.minX < b.maxX ==> v.x <= 0.0)
    && (p.y == b.minY && b.minY < b.maxY ==> v.y >= 0.0)
    && (p.y == b.maxY && b.minY < b.maxY ==> v.y <= 0.0)
  }

  /** Bounds for a box of size w x h in a viewW x viewH viewport: the whole
      box keeps `WallMargin` to every edge. They are non-empty exactly when
      the viewport is wide and tall enough for the box plus both margins. */
  function ViewBounds(w: real, h: real, viewW: real, viewH: real): (b: Bounds)
    ensures b.minX == WallMargin && b.minY == WallMargin
    ensures b.maxX + w + WallMargin == viewW && b.maxY + h + WallMargin == viewH
    ensures NonEmpty(b) <==> viewW >= w + 2.0 * WallMargin && viewH >= h + 2.0 * WallMargin
  {
    Bounds(WallMargin, WallMargin, viewW - w - WallMargin, viewH - h - WallMargin)
  }

  /** `clamp((reach - d) / reach, 0, 1)`: closeness on a unit scale, full at
      distance zero (or less) and gone at distance `reach` (or more). */
  function Ramp(d: real, reach: real): (r: real)
    requires reach > 0.0
    ensures 0.0 <= r <= 1.0
    ensures r == 1.0 <==> d <= 0.0
    ensures r == 0.0 <==> d >= reach
  {
    var q := (reach - d) / reach;
    QuotientSign(reach - d, reach);
    QuotientSign(-d, reach);
    QuotientShift(-d, reach);
    Clamp(q, 0.0, 1.0)
  }

  /** The further away, the less close. */
  lemma {:induction false} RampAntitone(d1: real, d2: real, reach: real)
    requires reach > 0.0 && d1 <= d2
    ensures Ramp(d2, reach) <= Ramp(d1, reach)
  {
    QuotientSign(d2 - d1, reach);
    assert (reach - d1) / reach - (reach - d2) / reach == (d2 - d1) / reach;
    ClampMonotone((reach - d2) / reach, (reach - d1) / reach, 0.0, 1.0);
  }

  /** How threatened the control is by a pointer at distance `dist` from its
      centre: 1 with the pointer on the centre, 0 from `Proximity` on. */
  function Threat(dist: real): (r: real)
    ensures 0.0 <= r <= 1.0
    ensures r == 1.0 <==> dist <= 0.0
    ensures r == 0.0 <==> dist >= Proximity
    ensures r > 0.0 <==> dist < Proximity
  {
    Ramp(dist, Proximity)
  }

  /** A pointer further away is never more threatening. */
  lemma ThreatAntitone(d1: real, d2: real)
    requires d1 <= d2
    ensures Threat(d2) <= Threat(d1)
  {
    RampAntitone(d1, d2, Proximity);
  }

  /** Proximity to each of the four walls, each on a unit scale. */
  datatype Walls = Walls(left: real, right: real, top: real, bottom: real)

  predicate InUnit(n: Walls) {
    && 0.0 <= n.left <= 1.0 && 0.0 <= n.right <= 1.0
    && 0.0 <= n.top <= 1.0 && 0.0 <= n.bottom <= 1.0
  }

  /** Wall proximities of a box at `pos`: each wall pushes only within
      `WallRepelDist` of its bound, and pushes fully at or past the bound. */
  function WallProximity(pos: Vec, b: Bounds): (n: Walls)
    ensures InUnit(n)
    ensures n.left == 0.0 <==> pos.x - b.minX >= WallRepelDist
    ensures n.right == 0.0 <==> b.maxX - pos.x >= WallRepelDist
    ensures n.top == 0.0 <==> pos.y - b.minY >= WallRepelDist
    ensures n.bottom == 0.0 <==> b.maxY - pos.y >= WallRepelDist
    ensures n.left == 1.0 <==> pos.x <= b.minX
    ensures n.right == 1.0 <==> pos.x >= b.maxX
    ensures n.top == 1.0 <==> pos.y <= b.minY
    ensures n.bottom == 1.0 <==> pos.y >= b.maxY
  {
    Walls(
      Ramp(pos.x - b.minX, WallRepelDist),
      Ramp(b.maxX - pos.x, WallRepelDist),
      Ramp(pos.y - b.minY, WallRepelDist),
      Ramp(b.maxY - pos.y, WallRepelDist))
  }

  /** Horizontal and vertical wall pressure: the nearer wall of each pair. */
  function SidePressure(n: Walls): real {
    Max(n.left, n.right)
  }

  function EdgePressure(n: Walls): real {
    Max(n.top, n.bottom)
  }

  /** `clamp(max(left, right) + max(top, bottom), 0, 2)`: on the unit scale
      the clamp never bites and the level is the sum of the two pressures. */
  function CornerLevel(n: Walls): (r: real)
    ensures 0.0 <= r <= 2.0
    ensures InUnit(n) ==> r == SidePressure(n) + EdgePressure(n)
  {
    Clamp(SidePressure(n) + EdgePressure(n), 0.0, 2.0)
  }

  /** `cornerLevel > 1.2`. Cornered needs more than 1.2 of combined
      pressure; on the unit scale that is also enough, and it takes more than
      0.2 from each of a horizontal and a vertical wall. */
  function Cornered(n: Walls): (c: bool)
    ensures c ==> SidePressure(n) + EdgePressure(n) > CornerThreshold
    ensures InUnit(n) ==> (c <==> SidePressure(n) + EdgePressure(n) > CornerThreshold)
    ensures InUnit(n) && c ==> SidePressure(n) > CornerThreshold - 1.0 && EdgePressure(n) > CornerThreshold - 1.0
  {
    CornerLevel(n) > CornerThreshold
  }

  /** What one frame learns from the geometry and the pointer. */
  datatype Analysis = Analysis(away: Vec, dist: real, threat: real, walls: Walls, cornered: bool)

  function Centre(pos: Vec, w: real, h: real): Vec {
    Vec(pos.x + w / 2.0, pos.y + h / 2.0)
  }

  /** Analysis of a w x h box at `pos` against the pointer: `away` points
      from the pointer to the box centre, `dist` is its length. */
  function Analyze(pos: Vec, w: real, h: real, pointer: Vec, b: Bounds, hypot: (real, real) -> real): (a: Analysis)
    requires IsHypot(hypot)
    ensures a.away.x + pointer.x == Centre(pos, w, h).x && a.away.y + pointer.y == Centre(pos, w, h).y
    ensures a.dist >= Abs(a.away.x) && a.dist >= Abs(a.away.y)
    ensures pointer == Centre(pos, w, h) ==> a.dist == 0.0 && a.threat == 1.0
    ensures 0.0 <= a.threat <= 1.0
    ensures a.threat > 0.0 <==> a.dist < Proximity
    ensures InUnit(a.walls)
    ensures a.cornered ==> SidePressure(a.walls) > 0.2 && EdgePressure(a.walls) > 0.2
  {
    var c := Centre(pos, w, h);
    var away := Vec(c.x - pointer.x, c.y - pointer.y);
    var dist := Len(away, hypot);
    var walls := WallProximity(pos, b);
    Analysis(away, dist, Threat(dist), walls, Cornered(walls))
  }
}

=== FILE: frame.dfy ===
/** One animation frame of the evading control (the `tick` callback of
    RepelButton.tsx, lines 64-174) as a pure function of the agent state and
    the frame's inputs, and runs of consecutive frames.

    The browser is replaced by parameters: the pointer position, the element
    (or its absence), the viewport size and the frame time are inputs, and the
    scale that the callback writes into the element's style is an output. */
module Frame {
  import opened Geometry
  import opened Tuning
  import opened Analyzer
  import opened Steering
  import opened Integrator
  import opened Scaling

  datatype Option<T> = None | Some(value: T)

  /** The refs the callback keeps between frames: top-left position,
      velocity and the time stamp (milliseconds) of the previous frame. */
  datatype AgentState = AgentState(pos: Vec, vel: Vec, lastT: real)

  /** The element behind the button ref: not rendered yet, or rendered
      with a bounding box of width w and height h. */
  datatype Element = Missing | Rendered(w: real, h: real)

  /** The new state, and the scale written to the element (none when there
      is no element). */
  datatype Tick = Tick(state: AgentState, scale: Option<real>)

  /** The pointer position before any pointer movement has been seen, far
      outside the viewport. */
  const Sentinel: Vec := Vec(-9999.0, -9999.0)

  /** Seconds to integrate for a frame at time t (ms) after one at lastT:
      the real elapsed time, but never more than `MaxDt`. */
  function Elapsed(lastT: real, t: real): (dt: real)
    ensures dt <= MaxDt
    ensures dt <= (t - lastT) / 1000.0
    ensures dt == MaxDt || dt == (t - lastT) / 1000.0
  {
    Min(MaxDt, (t - lastT) / 1000.0)
  }

  function BoundsFor(el: Element, viewW: real, viewH: real): Bounds
    requires el.Rendered?
  {
    ViewBounds(el.w, el.h, viewW, viewH)
  }

  /** One frame. The time stamp is set to t (which may lie before the
      previous one). Without an element nothing moves and no scale is
      written. With one, the scale is within [MinScale, 1], the position ends
      inside the bounds whenever the viewport can hold the box, a box resting
      on a bound has no velocity into it, and a velocity within panic speed
      on both axes stays within it. */
  function Step(s: AgentState, pointer: Vec, el: Element, viewW: real, viewH: real, t: real,
                hypot: (real, real) -> real): (r: Tick)
    requires IsHypot(hypot)
    ensures r.state.lastT == t
    ensures el.Missing? ==> r.state.pos == s.pos && r.state.vel == s.vel && r.scale == None
    ensures el.Rendered? ==> r.scale.Some? && MinScale <= r.scale.value <= 1.0
    ensures el.Rendered? && NonEmpty(BoundsFor(el, viewW, viewH)) ==>
      Inside(r.state.pos, BoundsFor(el, viewW, viewH))
    ensures el.Rendered? ==> NoVelocityIntoWalls(r.state.pos, r.state.vel, BoundsFor(el, viewW, viewH))
    ensures WithinBox(s.vel, PanicSpeed) ==> WithinBox(r.state.vel, PanicSpeed)
  {
    var dt := Elapsed(s.lastT, t);
    match el
    case Missing => Tick(s.(lastT := t), None)
    case Rendered(w, h) =>
      var b := ViewBounds(w, h, viewW, viewH);
      var a := Analyze(s.pos, w, h, pointer, b, hypot);
      var desired := Plan(a, hypot);
      var m := Integrate(s.pos, s.vel, desired, a.cornered, dt, b);
      Tick(AgentState(m.pos, m.vel, t), Some(Scale(a.dist)))
  }

  /** The inputs one frame reads from the browser. */
  datatype Input = Input(pointer: Vec, el: Element, viewW: real, viewH: real, t: real)

  /** The agent state after a run of consecutive frames. */
  function Run(s: AgentState, frames: seq<Input>, hypot: (real, real) -> real): AgentState
    requires IsHypot(hypot)
    decreases |frames|
  {
    if |frames| == 0 then s
    else
      var f := frames[0];
      Run(Step(s, f.pointer, f.el, f.viewW, f.viewH, f.t, hypot).state, frames[1..], hypot)
  }

  /** However long the run and however long any frame stalls, a velocity
      that starts within panic speed on both axes stays within it. */
  lemma {:induction false} RunKeepsSpeedBound(s: AgentState, frames: seq<Input>, hypot: (real, real) -> real)
    requires IsHypot(hypot)
    requires WithinBox(s.vel, PanicSpeed)
    ensures WithinBox(Run(s, frames, hypot).vel, PanicSpeed)
    decreases |frames|
  {
    if |frames| > 0 {
      var f := frames[0];
      var next := Step(s, f.pointer, f.el, f.viewW, f.viewH, f.t, hypot).state;
      RunKeepsSpeedBound(next, frames[1..], hypot);
    }
  }

  /** After a run, the time stamp is that of the last frame. */
  lemma {:induction false} RunAdvancesClock(s: AgentState, frames: seq<Input>, hypot: (real, real) -> real)
    requires IsHypot(hypot)
    requires |frames| > 0
    ensures Run(s, frames, hypot).lastT == frames[|frames| - 1].t
    decreases |frames|
  {
    var f := frames[0];
    var next := Step(s, f.pointer, f.el, f.viewW, f.viewH, f.t, hypot).state;
    if |frames| > 1 {
      RunAdvancesClock(next, frames[1..], hypot);
    }
  }

  /** If the last frame of a run has an element that fits its viewport, the
      run ends inside that frame's bounds, wherever it started and whatever
      viewports the earlier frames had. */
  lemma {:induction false} RunEndsInside(s: AgentState, frames: seq<Input>, hypot: (real, real) -> real)
    requires IsHypot(hypot)
    requires |frames| > 0
    requires frames[|frames| - 1].el.Rendered?
    requires NonEmpty(BoundsFor(frames[|frames| - 1].el, frames[|frames| - 1].viewW, frames[|frames| - 1].viewH))
    ensures Inside(Run(s, frames, hypot).pos,
                   BoundsFor(frames[|frames| - 1].el, frames[|frames| - 1].viewW, frames[|frames| - 1].viewH))
    decreases |frames|
  {
    var f := frames[0];
    var next := Step(s, f.pointer, f.el, f.viewW, f.viewH, f.t, hypot).state;
    if |frames| > 1 {
      assert frames[1..][|frames[1..]| - 1] == frames[|frames| - 1];
      RunEndsInside(next, frames[1..], hypot);
    }
  }

  predicate AllMissing(frames: seq<Input>) {
    forall i :: 0 <= i < |frames| ==> frames[i].el.Missing?
  }

  /** While the element is missing the control neither moves nor changes
      velocity; only the time stamp follows the frames. */
  lemma {:induction false} RunWhileMissing(s: AgentState, frames: seq<Input>, hypot: (real, real) -> real)
    requires IsHypot(hypot)
    requires AllMissing(frames)
    ensures Run(s, frames, hypot).pos == s.pos && Run(s, frames, hypot).vel == s.vel
    decreases |frames|
  {
    if |frames| > 0 {
      var f := frames[0];
      var next := Step(s, f.pointer, f.el, f.viewW, f.viewH, f.t, hypot).state;
      assert f.el.Missing?;
      assert AllMissing(frames[1..]) by {
        forall i | 0 <= i < |frames[1..]| ensures frames[1..][i].el.Missing? {
          assert frames[1..][i] == frames[i + 1];
        }
      }
      RunWhileMissing(next, frames[1..], hypot);
    }
  }

  /** The box is at least `WallRepelDist` from every bound. */
  predicate ClearOfWalls(pos: Vec, b: Bounds) {
    && pos.x - b.minX >= WallRepelDist && b.maxX - pos.x >= WallRepelDist
    && pos.y - b.minY >= WallRepelDist && b.maxY - pos.y >= WallRepelDist
  }

  /** Before the pointer has moved it sits at the sentinel, far outside the
      viewport: a box whose centre is at least `ScaleRadius` to its right is
      drawn at full size, and away from the walls the control only slows
      down, axis by axis; a control at rest stays where it is. */
  lemma SentinelPointerIsHarmless(s: AgentState, el: Element, viewW: real, viewH: real, t: real,
                                  hypot: (real, real) -> real)
    requires IsHypot(hypot)
    requires el.Rendered?
    requires Centre(s.pos, el.w, el.h).x - Sentinel.x >= ScaleRadius
    ensures Step(s, Sentinel, el, viewW, viewH, t, hypot).scale == Some(1.0)
    ensures ClearOfWalls(s.pos, BoundsFor(el, viewW, viewH)) ==>
      var v := Step(s, Sentinel, el, viewW, viewH, t, hypot).state.vel;
      Abs(v.x) <= Abs(s.vel.x) && Abs(v.y) <= Abs(s.vel.y)
    ensures ClearOfWalls(s.pos, BoundsFor(el, viewW, viewH)) && s.vel == Zero ==>
      var r := Step(s, Sentinel, el, viewW, viewH, t, hypot);
      r.state.pos == s.pos && r.state.vel == Zero
  {
    var b := BoundsFor(el, viewW, viewH);
    var a := Analyze(s.pos, el.w, el.h, Sentinel, b, hypot);
    assert a.dist >= ScaleRadius;
    assert a.threat == 0.0;
    if ClearOfWalls(s.pos, b) {
      assert NoWalls(a.walls);
      assert Plan(a, hypot) == Zero;
      if s.vel == Zero {
        StepMoves(s, Sentinel, el, viewW, viewH, t, hypot);
        RestingAxis(s.pos.x, DampFactor(a.cornered, Elapsed(s.lastT, t)), Elapsed(s.lastT, t), b.minX, b.maxX);
        RestingAxis(s.pos.y, DampFactor(a.cornered, Elapsed(s.lastT, t)), Elapsed(s.lastT, t), b.minY, b.maxY);
      }
    }
  }

  /** A control pushed 10 px from the left and top edges of a 1280 x 720
      viewport (inside the margin), at rest, with the pointer far away: it is
      cornered, heads into the interior on both axes, and the frame puts it
      back on the margin. */
  lemma CorneredAtTopLeft(hypot: (real, real) -> real)
    requires IsHypot(hypot)
    ensures
      var s := AgentState(Vec(10.0, 10.0), Zero, 0.0);
      var el := Rendered(80.0, 40.0);
      var b := BoundsFor(el, 1280.0, 720.0);
      var r := Step(s, Sentinel, el, 1280.0, 720.0, 16.0, hypot);
      && Analyze(s.pos, 80.0, 40.0, Sentinel, b, hypot).cornered
      && r.state.pos == Vec(WallMargin, WallMargin)
      && r.state.vel.x > 0.0 && r.state.vel.y > 0.0
  {
    var s := AgentState(Vec(10.0, 10.0), Zero, 0.0);
    var el := Rendered(80.0, 40.0);
    var b := BoundsFor(el, 1280.0, 720.0);
    var a := Analyze(s.pos, 80.0, 40.0, Sentinel, b, hypot);
    assert a.threat == 0.0;
    assert a.walls.left == 1.0 && a.walls.top == 1.0;
    assert a.walls.right == 0.0 && a.walls.bottom == 0.0;
    assert SidePressure(a.walls) + EdgePressure(a.walls) == 2.0;
    assert a.cornered;
    var d := Plan(a, hypot);
    assert d.x > 0.0 && d.y > 0.0;
    var k := DampFactor(true, Elapsed(0.0, 16.0));
    assert k == 0.4;
    var v := Damp(Zero, d, k);
    assert 0.0 < v.x <= PanicSpeed && 0.0 < v.y <= PanicSpeed;
  }

  /** A viewport too narrow for the box plus both margins (100 px for an
      80 px box) has `maxX < minX`. A box resting at x = 30 is past `minX`,
      so the upper-bound branch puts it at `maxX`, left of `minX`: the
      position is then outside the (empty) bounds. */
  lemma NarrowViewportPutsBoxAtMaxX(hypot: (real, real) -> real)
    requires IsHypot(hypot)
    ensures
      var el := Rendered(80.0, 40.0);
      var b := BoundsFor(el, 100.0, 720.0);
      var r := Step(AgentState(Vec(30.0, 300.0), Zero, 0.0), Sentinel, el, 100.0, 720.0, 0.0, hypot);
      && b.maxX < b.minX
      && r.state.pos.x == b.maxX
      && !Inside(r.state.pos, b)
  {
    var s := AgentState(Vec(30.0, 300.0), Zero, 0.0);
    var el := Rendered(80.0, 40.0);
    var b := BoundsFor(el, 100.0, 720.0);
    var a := Analyze(s.pos, 80.0, 40.0, Sentinel, b, hypot);
    var d := Plan(a, hypot);
    var m := Integrate(s.pos, s.vel, d, a.cornered, Elapsed(0.0, 0.0), b);
    StepMoves(s, Sentinel, el, 100.0, 720.0, 0.0, hypot);
    var k := DampFactor(a.cornered, 0.0);
    assert k == 0.0;
    assert m.pos.x == MoveAxis(30.0, 0.0, d.x, k, 0.0, b.minX, b.maxX).pos;
    assert MoveAxis(30.0, 0.0, d.x, k, 0.0, b.minX, b.maxX).pos == ClampAxis(30.0, 0.0, b.minX, b.maxX).pos;
  }

  /** A frame with an element moves the box as `Integrate` does with the
      analysed geometry and the planned velocity. */
  lemma StepMoves(s: AgentState, pointer: Vec, el: Element, viewW: real, viewH: real, t: real,
                  hypot: (real, real) -> real)
    requires IsHypot(hypot)
    requires el.Rendered?
    ensures
      var b := BoundsFor(el, viewW, viewH);
      var a := Analyze(s.pos, el.w, el.h, pointer, b, hypot);
      var m := Integrate(s.pos, s.vel, Plan(a, hypot), a.cornered, Elapsed(s.lastT, t), b);
      Step(s, pointer, el, viewW, viewH, t, hypot).state == AgentState(m.pos, m.vel, t)
  {
  }

  /** An axis at rest strictly inside its bounds, with nothing to steer
      towards, stays at rest where it is. */
  lemma RestingAxis(p: real, k: real, dt: real, lo: real, hi: real)
    requires 0.0 <= k <= 1.0 && lo < p < hi
    ensures MoveAxis(p, 0.0, 0.0, k, dt, lo, hi) == Axis(p, 0.0)
  {
    assert Approach(0.0, 0.0, k) == 0.0;
  }

  /** A pointer held exactly on the centre of a resting box clear of the
      walls gives no direction to flee in (`norm` of the zero vector is the
      zero vector): the box stays where it is, at rest, drawn at the
      smallest scale. The state is a fixed point of the frame. */
  lemma PointerOnCentreFreezes(s: AgentState, el: Element, viewW: real, viewH: real, t: real,
                               hypot: (real, real) -> real)
    requires IsHypot(hypot)
    requires el.Rendered?
    requires ClearOfWalls(s.pos, BoundsFor(el, viewW, viewH))
    requires s.vel == Zero
    ensures
      var r := Step(s, Centre(s.pos, el.w, el.h), el, viewW, viewH, t, hypot);
      r.state.pos == s.pos && r.state.vel == Zero && r.scale == Some(MinScale)
  {
    var b := BoundsFor(el, viewW, viewH);
    var pointer := Centre(s.pos, el.w, el.h);
    var a := Analyze(s.pos, el.w, el.h, pointer, b, hypot);
    assert a.away == Zero && a.dist == 0.0;
    assert NoWalls(a.walls);
    assert Plan(a, hypot) == Zero;
    StepMoves(s, pointer, el, viewW, viewH, t, hypot);
    RestingAxis(s.pos.x, DampFactor(a.cornered, Elapsed(s.lastT, t)), Elapsed(s.lastT, t), b.minX, b.maxX);
    RestingAxis(s.pos.y, DampFactor(a.cornered, Elapsed(s.lastT, t)), Elapsed(s.lastT, t), b.minY, b.maxY);
  }
}

=== FILE: geometry.dfy ===
/** Plane vectors over the reals and the three small numeric helpers of the
    control: `clamp`, `len` and `norm`.

    JavaScript numbers are modelled as mathematical reals. `Math.hypot` has no
    closed form over the reals, so every operation that needs a length takes
    it as a parameter `hypot` and assumes only what `IsHypot` states about it. */
module Geometry {

  datatype Vec = Vec(x: real, y: real)

  const Zero: Vec := Vec(0.0, 0.0)

  function Abs(a: real): (r: real)
    ensures r >= 0.0
    ensures r == a || r == -a
  {
    if a < 0.0 then -a else a
  }

  /** `Math.max` on two numbers. */
  function Max(a: real, b: real): (r: real)
    ensures r >= a && r >= b
    ensures r == a || r == b
  {
    if a < b then b else a
  }

  /** `Math.min` on two numbers. */
  function Min(a: real, b: real): (r: real)
    ensures r <= a && r <= b
    ensures r == a || r == b
  {
    if a < b then a else b
  }

  /** `clamp(v, min, max) = Math.max(min, Math.min(max, v))`.
      Within a proper interval the result is the point of [lo, hi] nearest
      to v; an inverted interval (hi < lo) always yields lo. */
  function Clamp(v: real, lo: real, hi: real): (r: real)
    ensures lo <= hi ==> lo <= r <= hi
    ensures lo <= v <= hi ==> r == v
    ensures v < lo ==> r == lo
    ensures lo <= hi < v ==> r == hi
    ensures hi < lo ==> r == lo
  {
    Max(lo, Min(hi, v))
  }

  /** Clamping to a fixed interval preserves order. */
  lemma ClampMonotone(v1: real, v2: real, lo: real, hi: real)
    requires v1 <= v2
    ensures Clamp(v1, lo, hi) <= Clamp(v2, lo, hi)
  {
  }

  /** What the model assumes of `Math.hypot`: it vanishes on the zero vector
      and is at least the magnitude of each of its arguments (so it is never
      negative and is positive on every non-zero vector). */
  ghost predicate IsHypot(hypot: (real, real) -> real) {
    && hypot(0.0, 0.0) == 0.0
    && forall x: real, y: real :: hypot(x, y) >= Abs(x) && hypot(x, y) >= Abs(y)
  }

  /** Neither coordinate of v exceeds `limit` in magnitude. */
  predicate WithinBox(v: Vec, limit: real) {
    Abs(v.x) <= limit && Abs(v.y) <= limit
  }

  /** `len(v)`: bounds both coordinates and vanishes exactly on the zero
      vector. */
  function Len(v: Vec, hypot: (real, real) -> real): (r: real)
    requires IsHypot(hypot)
    ensures r >= Abs(v.x) && r >= Abs(v.y)
    ensures r == 0.0 <==> v == Zero
  {
    hypot(v.x, v.y)
  }

  /** Both signs agree: positive together, negative together, zero together. */
  predicate SameSign(a: real, b: real) {
    (a > 0.0 <==> b > 0.0) && (a < 0.0 <==> b < 0.0)
  }

  /** The `len(v) || 1` guard: a zero length falls back to 1. */
  function SafeLen(v: Vec, hypot: (real, real) -> real): (l: real)
    requires IsHypot(hypot)
    ensures l > 0.0
    ensures v != Zero ==> l == Len(v, hypot)
  {
    if Len(v, hypot) == 0.0 then 1.0 else Len(v, hypot)
  }

  /** `norm(v)`: v divided by its (guarded) length. The direction keeps the
      sign of every coordinate, no coordinate exceeds one in magnitude, and
      the zero vector normalises to itself instead of dividing by zero. */
  function Norm(v: Vec, hypot: (real, real) -> real): (r: Vec)
    requires IsHypot(hypot)
    ensures SameSign(r.x, v.x) && SameSign(r.y, v.y)
    ensures WithinBox(r, 1.0)
    ensures v == Zero ==> r == Zero
  {
    var l := SafeLen(v, hypot);
    QuotientSign(v.x, l);
    QuotientSign(v.y, l);
    QuotientBound(v.x, l);
    QuotientBound(v.y, l);
    Vec(v.x / l, v.y / l)
  }

  lemma QuotientSign(a: real, l: real)
    requires l > 0.0
    ensures SameSign(a / l, a)
  {
    assert (a / l) * l == a;
  }

  /** Dividing by something at least as large in magnitude gives at most one. */
  lemma QuotientBound(a: real, l: real)
    requires l >= Abs(a) && l > 0.0
    ensures Abs(a / l) <= 1.0
  {
    var u := a / l;
    assert u * l == a;
    assert (1.0 - u) * l == l - a;
    assert (u + 1.0) * l == a + l;
    ProductSign(1.0 - u, l);
    ProductSign(u + 1.0, l);
  }

  /** Division by a positive k distributes over k + a. */
  lemma QuotientShift(a: real, k: real)
    requires k > 0.0
    ensures (k + a) / k == 1.0 + a / k
  {
    var x := (k + a) / k;
    var y := a / k;
    assert x * k == k + a;
    assert y * k == a;
    assert (x - 1.0 - y) * k == 0.0;
    assert (1.0 + y - x) * k == 0.0;
    ProductSign(x - 1.0 - y, k);
    ProductSign(1.0 + y - x, k);
  }

  lemma ProductSign(p: real, q: real)
    requires q > 0.0 && p * q >= 0.0
    ensures p >= 0.0
  {
  }

  /** Scaling a direction whose coordinates are at most one in magnitude by
      a non-negative s gives coordinates at most s in magnitude. */
  lemma ScaledDirectionBound(u: real, s: real)
    requires Abs(u) <= 1.0 && s >= 0.0
    ensures Abs(u * s) <= s
  {
    if u >= 0.0 {
      assert u * s <= 1.0 * s;
    } else {
      assert u * s >= -1.0 * s;
    }
  }
}

=== FILE: integrator.dfy ===
/** Motion integration: damping the velocity towards the desired one,
    advancing the position and resolving wall contact (RepelButton.tsx,
    lines 139-162). */
module Integrator {
  import opened Geometry
  import opened Tuning
  import opened Analyzer

  /** Damping rate: cornered controls converge faster. */
  function Accel(cornered: bool): real {
    if cornered then CorneredAccel else CalmAccel
  }

  /** `clamp(accel * dt, 0, 1)`, the share of the gap to the desired
      velocity closed this frame. It is a proper blend factor; a frame that
      does not advance time blends nothing; and with dt at most `MaxDt` the
      factor stays below one, so one frame never snaps to the target. */
  function DampFactor(cornered: bool, dt: real): (k: real)
    ensures 0.0 <= k <= 1.0
    ensures dt <= 0.0 ==> k == 0.0
    ensures 0.0 < dt ==> 0.0 < k
    ensures dt <= MaxDt ==> k <= CorneredAccel * MaxDt < 1.0
  {
    Clamp(Accel(cornered) * dt, 0.0, 1.0)
  }

  /** `v + (d - v) * k` on one coordinate. For a blend factor in [0, 1] the
      result lies between the old value and the target, so its magnitude is
      bounded by theirs, and approaching a zero target never speeds up.
      A factor below one never reaches a different target in one step. */
  function Approach(v: real, d: real, k: real): (r: real)
    ensures 0.0 <= k <= 1.0 ==> Min(v, d) <= r <= Max(v, d)
    ensures 0.0 <= k <= 1.0 ==> Abs(r) <= Max(Abs(v), Abs(d))
    ensures 0.0 <= k <= 1.0 && d == 0.0 ==> Abs(r) <= Abs(v) && (SameSign(r, v) || r == 0.0)
    ensures k == 0.0 ==> r == v
    ensures k == 1.0 ==> r == d
    ensures 0.0 <= k < 1.0 && v != d ==> r != d
  {
    v + Share(d - v, k)
  }

  /** The share `g * k` of a gap g: for k in [0, 1] it lies between zero
      and the gap itself, and for k below one it falls short of the gap. */
  function Share(g: real, k: real): (r: real)
    ensures 0.0 <= k <= 1.0 && g >= 0.0 ==> 0.0 <= r <= g
    ensures 0.0 <= k <= 1.0 && g <= 0.0 ==> g <= r <= 0.0
    ensures 0.0 <= k < 1.0 && g != 0.0 ==> r != g
    ensures k == 0.0 ==> r == 0.0
    ensures k == 1.0 ==> r == g
  {
    Between(g, k);
    g * k
  }

  lemma Between(g: real, k: real)
    ensures 0.0 <= k <= 1.0 && g >= 0.0 ==> 0.0 <= g * k <= g
    ensures 0.0 <= k <= 1.0 && g <= 0.0 ==> g <= g * k <= 0.0
    ensures 0.0 <= k < 1.0 && g != 0.0 ==> g * k != g
  {
    assert g - g * k == g * (1.0 - k);
    if !(0.0 <= k <= 1.0) {
    } else if g > 0.0 {
      assert g * (1.0 - k) >= 0.0;
      if k < 1.0 {
        assert g * (1.0 - k) > 0.0;
      }
    } else if g < 0.0 {
      assert g * (1.0 - k) <= 0.0;
      if k < 1.0 {
        assert g * (1.0 - k) < 0.0;
      }
    }
  }

  /** Damping of both coordinates with the same factor. */
  function Damp(v: Vec, d: Vec, k: real): Vec {
    Vec(Approach(v.x, d.x, k), Approach(v.y, d.y, k))
  }

  /** Position and velocity along one axis. */
  datatype Axis = Axis(pos: real, vel: real)

  /** Wall contact on one axis (`nx <= minX` first, then `nx >= maxX`).
      In a non-empty interval the position is the nearest in-bound point;
      contact with the lower bound leaves no velocity towards it, and
      symmetrically at the upper bound; a strictly interior result keeps
      position and velocity; the velocity otherwise only ever drops to
      zero, never grows. An empty interval always puts the position on one
      of its (inverted) ends. */
  function ClampAxis(n: real, v: real, lo: real, hi: real): (r: Axis)
    ensures lo <= hi ==> r.pos == Clamp(n, lo, hi)
    ensures r.pos == lo && lo < hi ==> r.vel >= 0.0
    ensures r.pos == hi && lo < hi ==> r.vel <= 0.0
    ensures lo < r.pos < hi ==> r == Axis(n, v)
    ensures r.vel == v || (r.vel == 0.0 && (r.pos == lo || r.pos == hi))
    ensures Abs(r.vel) <= Abs(v)
    ensures hi < lo ==> r.pos == lo || r.pos == hi
  {
    if n <= lo then Axis(lo, Max(0.0, v))
    else if n >= hi then Axis(hi, Min(0.0, v))
    else Axis(n, v)
  }

  /** What one frame guarantees on one axis, for a position p and velocity
      v damped towards d and moved for dt within [lo, hi]: the new position r
      is in a non-empty interval; the new velocity is bounded by the old and
      desired ones and does not grow towards a zero target; a contact with a
      bound leaves no velocity into it; and an interior result is exactly
      the old position moved by the new velocity for dt. */
  predicate AxisStep(r: Axis, p: real, v: real, d: real, dt: real, lo: real, hi: real) {
    && (lo <= hi ==> lo <= r.pos <= hi)
    && Abs(r.vel) <= Max(Abs(v), Abs(d))
    && (d == 0.0 ==> Abs(r.vel) <= Abs(v))
    && (r.pos == lo && lo < hi ==> r.vel >= 0.0)
    && (r.pos == hi && lo < hi ==> r.vel <= 0.0)
    && (lo < r.pos < hi ==> r.pos == p + r.vel * dt)
  }

  /** One axis of a frame: damp the velocity coordinate v towards d, move
      the position p by it for dt, then resolve contact with [lo, hi]. */
  function MoveAxis(p: real, v: real, d: real, k: real, dt: real, lo: real, hi: real): (r: Axis)
    requires 0.0 <= k <= 1.0
    ensures AxisStep(r, p, v, d, dt, lo, hi)
  {
    var v1 := Approach(v, d, k);
    ClampAxis(p + v1 * dt, v1, lo, hi)
  }

  /** Position and velocity after one frame. */
  datatype Motion = Motion(pos: Vec, vel: Vec)

  /** One integration step: damp the velocity with factor
      `DampFactor(cornered, dt)`, move by velocity * dt, then resolve wall
      contact on each axis independently; each axis meets `AxisStep` with
      the bounds of that axis. */
  function Integrate(pos: Vec, vel: Vec, desired: Vec, cornered: bool, dt: real, b: Bounds): (m: Motion)
    ensures AxisStep(Axis(m.pos.x, m.vel.x), pos.x, vel.x, desired.x, dt, b.minX, b.maxX)
    ensures AxisStep(Axis(m.pos.y, m.vel.y), pos.y, vel.y, desired.y, dt, b.minY, b.maxY)
  {
    var k := DampFactor(cornered, dt);
    var ax := MoveAxis(pos.x, vel.x, desired.x, k, dt, b.minX, b.maxX);
    var ay := MoveAxis(pos.y, vel.y, desired.y, k, dt, b.minY, b.maxY);
    Motion(Vec(ax.pos, ay.pos), Vec(ax.vel, ay.vel))
  }
}

=== FILE: scaling.dfy ===
/** The purely visual shrink of the control as the pointer approaches
    (RepelButton.tsx, lines 165-170). */
module Scaling {
  import opened Geometry
  import opened Tuning

  /** Full size from `ScaleRadius` on; inside that radius the scale rises
      linearly from `MinScale` (pointer on the centre) towards 1. */
  function Scale(dist: real): (s: real)
    ensures MinScale <= s <= 1.0
    ensures s == 1.0 <==> dist >= ScaleRadius
    ensures dist <= 0.0 ==> s == MinScale
  {
    if dist < ScaleRadius then
      MinScale + (1.0 - MinScale) * Clamp(dist / ScaleRadius, 0.0, 1.0)
    else
      1.0
  }

  /** A pointer further away never makes the control smaller. */
  lemma ScaleMonotone(d1: real, d2: real)
    requires d1 <= d2
    ensures Scale(d1) <= Scale(d2)
  {
    ClampMonotone(d1 / ScaleRadius, d2 / ScaleRadius, 0.0, 1.0);
  }
}

=== FILE: steering.dfy ===
/** Steering: the target speed, the blended flee/avoid direction and the
    desired velocity (RepelButton.tsx, lines 105-137). */
module Steering {
  import opened Geometry
  import opened Tuning
  import opened Analyzer

  /** Cornered controls run at panic speed; otherwise threat adds up to
      `ThreatBoost` of the gap between base and panic speed. */
  function TargetSpeed(cornered: bool, threat: real): (s: real)
    ensures cornered ==> s == PanicSpeed
    ensures !cornered && 0.0 <= threat <= 1.0 ==>
      BaseSpeed <= s <= BaseSpeed + ThreatBoost * (PanicSpeed - BaseSpeed)
    ensures !cornered && threat == 0.0 ==> s == BaseSpeed
    ensures 0.0 <= threat <= 1.0 ==> BaseSpeed <= s <= PanicSpeed
  {
    if cornered then PanicSpeed else BaseSpeed + threat * (PanicSpeed - BaseSpeed) * ThreatBoost
  }

  /** More threat never means a lower target speed. */
  lemma TargetSpeedMonotone(cornered: bool, t1: real, t2: real)
    requires t1 <= t2
    ensures TargetSpeed(cornered, t1) <= TargetSpeed(cornered, t2)
  {
  }

  predicate NoWalls(n: Walls) {
    n.left == 0.0 && n.right == 0.0 && n.top == 0.0 && n.bottom == 0.0
  }

  /** The push of the walls: each wall pushes towards the interior. */
  function WallForce(n: Walls): Vec {
    Vec(n.left * 1.0 + n.right * -1.0, n.top * 1.0 + n.bottom * -1.0)
  }

  /** Weight of the flee direction; it grows from 0.85 to 1 with threat. */
  function AwayWeightFor(threat: real): real {
    AwayWeight + AwayThreatWeight * threat
  }

  /** The flee term: the unit direction away from the pointer, weighted by
      `AwayWeightFor(threat)`, present only while threatened. */
  function AwayTerm(away: Vec, threat: real, hypot: (real, real) -> real): (p: Vec)
    requires IsHypot(hypot)
    ensures threat <= 0.0 ==> p == Zero
    ensures threat > 0.0 ==> SameSign(p.x, away.x) && SameSign(p.y, away.y)
  {
    if threat > 0.0 then
      var awayDir := Norm(away, hypot);
      var w := AwayWeightFor(threat);
      WeightedSign(awayDir.x, away.x, w);
      WeightedSign(awayDir.y, away.y, w);
      Vec(awayDir.x * w, awayDir.y * w)
    else
      Zero
  }

  /** The wall term: the normalised wall push, weighted on each axis by the
      pressure of the nearer wall of that axis. On each axis it points away
      from the nearer wall, and it vanishes without wall pressure. */
  function WallTerm(n: Walls, hypot: (real, real) -> real): (q: Vec)
    requires IsHypot(hypot)
    ensures NoWalls(n) ==> q == Zero
    ensures InUnit(n) ==> SameSign(q.x, n.left - n.right) && SameSign(q.y, n.top - n.bottom)
  {
    var wallDir := Norm(WallForce(n), hypot);
    Vec(WallAxis(wallDir.x, n.left, n.right), WallAxis(wallDir.y, n.top, n.bottom))
  }

  /** One axis of the wall term: direction coordinate u weighted by
      `WallWeight` times the pressure of the nearer wall of the axis. */
  function WallAxis(u: real, near: real, far: real): (r: real)
    requires SameSign(u, near * 1.0 + far * -1.0)
    ensures near == 0.0 && far == 0.0 ==> r == 0.0
    ensures 0.0 <= near && 0.0 <= far ==> SameSign(r, near - far)
  {
    WallTermSign(u, near, far);
    u * (WallWeight * Max(near, far))
  }

  /** The unnormalised steering direction `dir`: flee term plus wall term.
      Without threat it points, on each axis, away from the nearer wall;
      without wall pressure it points straight away from the pointer; with
      neither it is the zero vector. */
  function Direction(a: Analysis, hypot: (real, real) -> real): (dir: Vec)
    requires IsHypot(hypot)
    ensures a.threat <= 0.0 && NoWalls(a.walls) ==> dir == Zero
    ensures a.threat <= 0.0 && InUnit(a.walls) ==>
      SameSign(dir.x, a.walls.left - a.walls.right) && SameSign(dir.y, a.walls.top - a.walls.bottom)
    ensures a.threat > 0.0 && NoWalls(a.walls) ==>
      SameSign(dir.x, a.away.x) && SameSign(dir.y, a.away.y)
  {
    var p := AwayTerm(a.away, a.threat, hypot);
    var q := WallTerm(a.walls, hypot);
    BlendSigns(a, p, q);
    Vec(p.x + q.x, p.y + q.y)
  }

  /** Sign bookkeeping for the sum of the two terms of `Direction`, over
      plain vectors so that the solver does not see the terms' definitions. */
  lemma BlendSigns(a: Analysis, p: Vec, q: Vec)
    requires a.threat <= 0.0 ==> p == Zero
    requires a.threat > 0.0 ==> SameSign(p.x, a.away.x) && SameSign(p.y, a.away.y)
    requires NoWalls(a.walls) ==> q == Zero
    requires InUnit(a.walls) ==> SameSign(q.x, a.walls.left - a.walls.right) && SameSign(q.y, a.walls.top - a.walls.bottom)
    ensures a.threat <= 0.0 && NoWalls(a.walls) ==> Vec(p.x + q.x, p.y + q.y) == Zero
    ensures a.threat <= 0.0 && InUnit(a.walls) ==>
      SameSign(p.x + q.x, a.walls.left - a.walls.right) && SameSign(p.y + q.y, a.walls.top - a.walls.bottom)
    ensures a.threat > 0.0 && NoWalls(a.walls) ==>
      SameSign(p.x + q.x, a.away.x) && SameSign(p.y + q.y, a.away.y)
  {
  }

  /** Weighting a coordinate that has the sign of a by a positive w keeps
      the sign of a. */
  lemma WeightedSign(u: real, a: real, w: real)
    requires w > 0.0 && SameSign(u, a)
    ensures SameSign(u * w, a)
  {
    ScaleSign(u, w);
  }

  /** Multiplying by a positive factor keeps the sign. */
  lemma ScaleSign(u: real, k: real)
    requires k > 0.0
    ensures SameSign(u * k, u)
  {
  }

  /** The wall term of one axis: its direction coordinate has the sign of
      near - far, and the weight `WallWeight * max(near, far)` is positive
      whenever near and far differ. */
  lemma WallTermSign(u: real, near: real, far: real)
    requires SameSign(u, near * 1.0 + far * -1.0)
    ensures 0.0 <= near && 0.0 <= far ==> SameSign(u * (WallWeight * Max(near, far)), near - far)
  {
    if 0.0 <= near && 0.0 <= far && near != far {
      assert Max(near, far) > 0.0;
      ScaleSign(u, WallWeight * Max(near, far));
    }
  }

  /** `desiredVel`: the direction rescaled to length `speed` when it has a
      length, otherwise standing still. No coordinate exceeds the speed, and
      each keeps the sign of the direction. */
  function DesiredVelocity(dir: Vec, speed: real, hypot: (real, real) -> real): (d: Vec)
    requires IsHypot(hypot)
    ensures speed >= 0.0 ==> WithinBox(d, speed)
    ensures dir == Zero ==> d == Zero
    ensures speed > 0.0 ==> SameSign(d.x, dir.x) && SameSign(d.y, dir.y)
  {
    var l := Len(dir, hypot);
    if l > 0.0 then
      Rescale(dir, l, speed);
      Vec((dir.x / l) * speed, (dir.y / l) * speed)
    else
      Zero
  }

  /** Dividing a vector by a length that bounds its coordinates and
      multiplying by `speed` bounds each coordinate by the speed and, for a
      positive speed, keeps every sign. */
  lemma Rescale(dir: Vec, l: real, speed: real)
    requires l > 0.0 && l >= Abs(dir.x) && l >= Abs(dir.y)
    ensures speed >= 0.0 ==> WithinBox(Vec((dir.x / l) * speed, (dir.y / l) * speed), speed)
    ensures speed > 0.0 ==> SameSign((dir.x / l) * speed, dir.x) && SameSign((dir.y / l) * speed, dir.y)
  {
    RescaleCoordinate(dir.x, l, speed);
    RescaleCoordinate(dir.y, l, speed);
  }

  lemma RescaleCoordinate(a: real, l: real, speed: real)
    requires l > 0.0 && l >= Abs(a)
    ensures speed >= 0.0 ==> Abs((a / l) * speed) <= speed
    ensures speed > 0.0 ==> SameSign((a / l) * speed, a)
  {
    QuotientSign(a, l);
    QuotientBound(a, l);
    if speed > 0.0 {
      ScaleSign(a / l, speed);
    }
    if speed >= 0.0 {
      ScaledDirectionBound(a / l, speed);
    }
  }

  /** The whole steering step: the velocity the control would like to have.
      It never exceeds panic speed on either axis; it is zero with neither
      threat nor wall pressure; it flees the pointer directly when no wall
      presses; with the pointer out of range it heads, on each axis, away
      from the nearer wall; and with the pointer exactly on the centre and no
      wall pressure there is no direction to flee in, so it is zero. */
  function Plan(a: Analysis, hypot: (real, real) -> real): (d: Vec)
    requires IsHypot(hypot)
    ensures 0.0 <= a.threat <= 1.0 ==> WithinBox(d, PanicSpeed)
    ensures a.threat <= 0.0 && NoWalls(a.walls) ==> d == Zero
    ensures 0.0 < a.threat <= 1.0 && NoWalls(a.walls) ==>
      SameSign(d.x, a.away.x) && SameSign(d.y, a.away.y)
    ensures a.threat == 0.0 && InUnit(a.walls) ==>
      SameSign(d.x, a.walls.left - a.walls.right) && SameSign(d.y, a.walls.top - a.walls.bottom)
    ensures a.away == Zero && NoWalls(a.walls) ==> d == Zero
  {
    var dir := Direction(a, hypot);
    var speed := TargetSpeed(a.cornered, a.threat);
    var d := DesiredVelocity(dir, speed, hypot);
    PlanFacts(a, dir, speed, d);
    d
  }

  /** Combines the contracts of the three steps of `Plan`, over plain
      values so that the solver does not see their definitions. */
  lemma PlanFacts(a: Analysis, dir: Vec, speed: real, d: Vec)
    requires 0.0 <= a.threat <= 1.0 ==> BaseSpeed <= speed <= PanicSpeed
    requires speed >= 0.0 ==> WithinBox(d, speed)
    requires dir == Zero ==> d == Zero
    requires speed > 0.0 ==> SameSign(d.x, dir.x) && SameSign(d.y, dir.y)
    requires a.threat <= 0.0 && NoWalls(a.walls) ==> dir == Zero
    requires a.threat <= 0.0 && InUnit(a.walls) ==>
      SameSign(dir.x, a.walls.left - a.walls.right) && SameSign(dir.y, a.walls.top - a.walls.bottom)
    requires a.threat > 0.0 && NoWalls(a.walls) ==>
      SameSign(dir.x, a.away.x) && SameSign(dir.y, a.away.y)
    ensures 0.0 <= a.threat <= 1.0 ==> WithinBox(d, PanicSpeed)
    ensures a.threat <= 0.0 && NoWalls(a.walls) ==> d == Zero
    ensures 0.0 < a.threat <= 1.0 && NoWalls(a.walls) ==>
      SameSign(d.x, a.away.x) && SameSign(d.y, a.away.y)
    ensures a.threat == 0.0 && InUnit(a.walls) ==>
      SameSign(d.x, a.walls.left - a.walls.right) && SameSign(d.y, a.walls.top - a.walls.bottom)
    ensures a.away == Zero && NoWalls(a.walls) ==> d == Zero
  {
  }
}

=== FILE: tuning.dfy ===
/** The tuning constants of the evading control (distances in pixels,
    speeds in pixels per second, times in seconds). */
module Tuning {

  /** Pointer distance below which the control feels threatened. */
  const Proximity: real := 100.0

  /** Cruising speed when the pointer is just inside `Proximity`. */
  const BaseSpeed: real := 600.0

  /** Top speed, used when the control is cornered. */
  const PanicSpeed: real := 1000.0

  /** Gap kept between the control and every viewport edge. */
  const WallMargin: real := 24.0

  /** Distance from a wall bound below which that wall pushes back. */
  const WallRepelDist: real := 150.0

  /** Smallest visual scale, reached when the pointer sits on the centre. */
  const MinScale: real := 0.1

  /** Pointer distance below which the control starts to shrink. */
  const ScaleRadius: real := 120.0

  /** Longest time step a single frame integrates, whatever the real gap. */
  const MaxDt: real := 0.033

  /** Share of the speed range that full threat adds to `BaseSpeed`. */
  const ThreatBoost: real := 0.55

  /** Corner level above which the control counts as cornered. */
  const CornerThreshold: real := 1.2

  /** Weight of the flee-the-pointer direction: `AwayWeight + AwayThreatWeight * threat`. */
  const AwayWeight: real := 0.85
  const AwayThreatWeight: real := 0.15

  /** Weight of the wall-avoidance direction per unit of wall proximity. */
  const WallWeight: real := 0.9

  /** Damping rates (per second) towards the desired velocity. */
  const CorneredAccel: real := 25.0
  const CalmAccel: real := 15.0
}
